=== FILE: README.md ===
# FocusAlarm escalation engine in Dafny

This project models `EscalationService`, the background service of the FocusAlarm
app that keeps an alarm ringing with rising urgency once it fires:

- a **beep loop** plays the current level's sound every 3 s unless the alarm is
  acknowledged;
- a **level loop** fires every 20 s: it stops all sound, clears the
  acknowledgement and raises the level from 1 up to 4, where it saturates;
- an **Acknowledge** silences the beeps until the next level change, except at
  level 4, where it is a full cancel;
- a **Cancel** marks the episode cancelled, clears both loops and releases the
  sound pool;
- a **single beep** plays the level-1 sound once (after a 300 ms retry if that
  sound is not loaded yet) and tears the service down 500 ms later.

All callbacks run on the app's main looper. So the service is modelled as a
pure step function `Escalation.Step(state, event) -> (state, effects)`.
`Escalation.Run` extends it to a sequence of events.

The state holds the service's fields: `currentLevel`, `acknowledged`,
`isCancelled`, `sound1Loaded` and `soundMap`. It also holds the looper's clock
and its queue of pending messages (`MessageQueue`). That queue is ordered by
due time, and a message posted with the same due time as queued ones runs after
them. The Handler a message goes through is fixed by its callback (`HandlerOf`). The beep and
level callbacks go through the service's two Handlers. The single-beep
callbacks go through anonymous Handlers, which `removeCallbacksAndMessages`
never clears.

The sound pool, the notification and the service lifecycle are ports. Calls to
them are recorded as effects: `Play(level)`, `StopAll`, `Release`,
`Notify(level)`, `StopForeground` and `StopSelf`.

Events are:
- an intent delivered to `onStartCommand`;
- `Fire`: the looper runs its next message;
- `Elapse`: time passes;
- `LoadComplete`: the sound pool's load-complete callback;
- `Destroy`: `onDestroy`.

Files:
- `optional.dfy`: `Option`, for Kotlin's nullable values.
- `message_queue.dfy`: the looper's message queue. Covers posting, per-Handler
  removal and their ordering lemmas.
- `escalation.dfy`: the service state, every callback and command, `Step` and
  `Run`.
- `escalation_invariants.dfy`: the state invariant `Valid`, and proofs that
  every event preserves it.
- `escalation_properties.dfy`: properties over event sequences.

## Model

| member | source | states |
|---|---|---|
| MessageQueue.HandlerOf | app/src/main/java/com/cantrip/focusalarm/EscalationService.kt:57-58 | the beep loop alone goes through the beep Handler and the level loop alone through the level Handler; the single-beep retry and teardown, and only they, go through anonymous Handlers (lines 119 and 164) that nothing can clear |
| MessageQueue.Enqueue | app/src/main/java/com/cantrip/focusalarm/EscalationService.kt:57-58 | posting to the shared main looper adds exactly the new message and keeps every queued one |
| MessageQueue.EnqueuePosition | app/src/main/java/com/cantrip/focusalarm/EscalationService.kt:150-151 | a posted message lands after every message due no later than it and before every message due later, all others keeping their order |
| MessageQueue.EnqueueMultiset | app/src/main/java/com/cantrip/focusalarm/EscalationService.kt:150-151 | posting adds exactly one copy of the message, even when an equal one is already pending, and drops nothing |
| MessageQueue.EnqueueSorted | app/src/main/java/com/cantrip/focusalarm/EscalationService.kt:57-58 | posting keeps the looper's queue in due-time order |
| MessageQueue.RemoveCallbacks | app/src/main/java/com/cantrip/focusalarm/EscalationService.kt:188-189 | clearing a Handler leaves a message in the queue exactly when it was queued through another Handler, and never lengthens the queue |
| MessageQueue.RemoveCallbacksMultiset | app/src/main/java/com/cantrip/focusalarm/EscalationService.kt:188-189 | clearing a Handler drops every copy of that Handler's messages and keeps every copy of all others |
| MessageQueue.RemoveCallbacksAppend | app/src/main/java/com/cantrip/focusalarm/EscalationService.kt:188-189 | clearing a Handler keeps the remaining messages in their order: removal distributes over concatenation |
| MessageQueue.RemoveCallbacksSorted | app/src/main/java/com/cantrip/focusalarm/EscalationService.kt:188-189 | clearing a Handler keeps the remaining queue in due-time order |
| Escalation.OnCreate | app/src/main/java/com/cantrip/focusalarm/EscalationService.kt:54-73 | a new service is at level 1, neither acknowledged nor cancelled, with no pending message and a sound for each of the four levels |
| Escalation.Post | app/src/main/java/com/cantrip/focusalarm/EscalationService.kt:148-151 | posting a callback queues a message due `delay` ms from now, keeps every queued message and changes no other field |
| Escalation.PostAddsOneMessage | app/src/main/java/com/cantrip/focusalarm/EscalationService.kt:148-151 | posting adds exactly one message, counted with its copies, and drops none |
| Escalation.PlayBeepForLevel | app/src/main/java/com/cantrip/focusalarm/EscalationService.kt:170-178 | a `Play(level)` is issued if and only if the pool has a sound for that level, and nothing else is issued |
| Escalation.CancelEscalation | app/src/main/java/com/cantrip/focusalarm/EscalationService.kt:186-195 | afterwards the episode is cancelled and no beep or level callback is pending, while single-beep callbacks survive; the effects are exactly stop-all, release, stop-foreground and stop-self, once each and in that order; level and acknowledgement are unchanged |
| Escalation.BeepTick | app/src/main/java/com/cantrip/focusalarm/EscalationService.kt:84-90 | once cancelled: no effect and no reschedule; otherwise the current level's sound is requested, once, exactly when not acknowledged and the sound exists, and the beep is reposted 3 s later |
| Escalation.LevelTick | app/src/main/java/com/cantrip/focusalarm/EscalationService.kt:94-109 | once cancelled: no effect; otherwise the level rises by one up to 4 and holds at 4, the acknowledgement is cleared, the effects are exactly stop-all then the new level's notification, and the tick is reposted 20 s later |
| Escalation.SingleBeepAndCancel | app/src/main/java/com/cantrip/focusalarm/EscalationService.kt:156-167 | plays the level-1 sound at most once, exactly when the pool has it, and posts the teardown 500 ms later, whatever the level, acknowledgement or cancelled flag |
| Escalation.Classify | app/src/main/java/com/cantrip/focusalarm/EscalationService.kt:113-146 | the single-beep extra wins over any action; Acknowledge and Cancel are recognised by their action strings only without that extra; everything else, a missing intent included, takes the start path |
| Escalation.OnStartCommand | app/src/main/java/com/cantrip/focusalarm/EscalationService.kt:113-153 | single beep shows level 1 and leaves level, acknowledgement and cancelled flag alone, in any state: without the level-1 sound loaded it only posts the retry 300 ms later, with it it plays the sound and posts the teardown 500 ms later; Acknowledge at level 4 is Cancel, below it only sets the acknowledgement; Cancel ignores the cancelled flag; start does nothing once cancelled, otherwise shows the level and posts the beep now and the level tick in 20 s |
| Escalation.RunTask | app/src/main/java/com/cantrip/focusalarm/EscalationService.kt:83-110 | running a callback never lowers the level or moves the clock, and a beep or level callback does nothing once cancelled |
| Escalation.FireNext | app/src/main/java/com/cantrip/focusalarm/EscalationService.kt:85-95 | the looper takes the head message off the queue, moves its clock to that message's due time, which no pending message precedes, and runs exactly that message's callback; a beep or level message that runs after the cancellation has no effect |
| Escalation.OnLoadComplete | app/src/main/java/com/cantrip/focusalarm/EscalationService.kt:76-81 | the level-1 sound becomes ready exactly on a successful load of the level-1 sample, and nothing else changes |
| Escalation.OnDestroy | app/src/main/java/com/cantrip/focusalarm/EscalationService.kt:219-227 | beep and level callbacks are cleared, and the pool is released, once, if and only if no cancellation happened; nothing else changes |
| Escalation.CancelKeepsOneShots | app/src/main/java/com/cantrip/focusalarm/EscalationService.kt:188-189 | a cancellation drops every copy of the beep and level messages and keeps every copy of each pending single-beep message |
| Escalation.DestroyKeepsOneShots | app/src/main/java/com/cantrip/focusalarm/EscalationService.kt:221-222 | destroying the service drops every copy of the beep and level messages and keeps every copy of each pending single-beep message |
| Escalation.Step | app/src/main/java/com/cantrip/focusalarm/EscalationService.kt:76-227 | one event, dispatched to the load listener, `onStartCommand`, the looper or `onDestroy`, never lowers the level, resets the cancelled flag or changes the sound map |
| Escalation.Run | app/src/main/java/com/cantrip/focusalarm/EscalationService.kt:186-187 | over any sequence of events the level never goes down and a cancellation is never undone |
| EscalationInvariants.StepPreservesValid | app/src/main/java/com/cantrip/focusalarm/EscalationService.kt:85-95 | every event keeps the level in 1..4, the queue ordered and not overdue, and no beep or level callback pending once cancelled |
| EscalationInvariants.RunPreservesValid | app/src/main/java/com/cantrip/focusalarm/EscalationService.kt:101-106 | any sequence of events keeps the service valid, so the level stays within 1..4 |
| EscalationInvariants.FirePreservesValid | app/src/main/java/com/cantrip/focusalarm/EscalationService.kt:89-108 | running the next message keeps the service valid, including the reposted beep and level ticks |
| EscalationInvariants.CancelPreservesValid | app/src/main/java/com/cantrip/focusalarm/EscalationService.kt:186-191 | a cancellation leaves a valid service with no tick pending |
| EscalationProperties.LevelNeverDecreases | app/src/main/java/com/cantrip/focusalarm/EscalationService.kt:101-106 | at every later point of a run the level is at least what it was earlier, and it stays within 1..4 |
| EscalationProperties.LevelAfterTicks | app/src/main/java/com/cantrip/focusalarm/EscalationService.kt:101-106 | after n uncancelled level ticks the level is min(level + n, 4) |
| EscalationProperties.LevelFromCreation | app/src/main/java/com/cantrip/focusalarm/EscalationService.kt:32-33 | from a new service, n level ticks give level min(1 + n, 4) |
| EscalationProperties.AcknowledgeIsCancelExactlyAtMax | app/src/main/java/com/cantrip/focusalarm/EscalationService.kt:131-139 | Acknowledge behaves exactly like Cancel if and only if the level is at its maximum |
| EscalationProperties.AcknowledgeSilencesOneLevelCycle | app/src/main/java/com/cantrip/focusalarm/EscalationService.kt:86-99 | below level 4 an acknowledgement silences the next beep, and the beep after the following level tick plays at the new level |
| EscalationProperties.CommandsNeverStartLoops | app/src/main/java/com/cantrip/focusalarm/EscalationService.kt:131-144 | Acknowledge and Cancel intents return before the start path: they post nothing, so no message, counted with its copies, is pending afterwards that was not pending before |
| EscalationProperties.CancelSilencesTicks | app/src/main/java/com/cantrip/focusalarm/EscalationService.kt:186-189 | after a cancellation no tick is pending, and a beep or level tick would do nothing |
| EscalationProperties.SilentAfterCancel | app/src/main/java/com/cantrip/focusalarm/EscalationService.kt:219-225 | once cancelled with nothing pending, no sequence of timer, clock, load or destroy events produces any effect |
| EscalationProperties.StartPostsBeepFirst | app/src/main/java/com/cantrip/focusalarm/EscalationService.kt:148-151 | starting an idle service shows its level and queues the beep due now ahead of the level tick due in 20 s |
| EscalationProperties.StartBeepsBeforeEscalating | app/src/main/java/com/cantrip/focusalarm/EscalationService.kt:148-151 | on an idle service (empty queue), the first message run after a start is a beep at the current level, before any level change |
| EscalationProperties.FirstSoundIsLevelOne | app/src/main/java/com/cantrip/focusalarm/EscalationService.kt:148-151 | a new service that is started shows level 1 and then plays the level-1 sound |
| EscalationProperties.RepeatedStartDoublesLoops | app/src/main/java/com/cantrip/focusalarm/EscalationService.kt:148-151 | a second start, guarded only by the cancelled flag, queues a second beep loop and a second level loop |
| EscalationProperties.RepeatedCancelReleasesAgain | app/src/main/java/com/cantrip/focusalarm/EscalationService.kt:141-144 | a second Cancel re-runs the whole teardown, including a second release |
| EscalationProperties.SingleBeepEpisode | app/src/main/java/com/cantrip/focusalarm/EscalationService.kt:115-125 | a single-beep episode on an idle service (empty queue) shows level 1, plays the level-1 sound at most once (once exactly when it exists), ends cancelled and released with nothing pending within 800 ms, and leaves level and acknowledgement untouched |
| EscalationProperties.LoadCompleteSkipsRetry | app/src/main/java/com/cantrip/focusalarm/EscalationService.kt:115-124 | after a successful load of the level-1 sample a single beep plays at once; otherwise it only shows level 1 and waits for the retry |
| EscalationProperties.SingleBeepRetrySurvivesCancel | app/src/main/java/com/cantrip/focusalarm/EscalationService.kt:119-121 | on a new service, a Cancel between the single-beep intent and its retry does not stop the retry: after the release the retry still calls `soundPool.play` on the released pool, and the teardown it posts is left pending, due 800 ms after the intent |
| EscalationProperties.CancelledMeansReleased | app/src/main/java/com/cantrip/focusalarm/EscalationService.kt:186-191 | a run that ends cancelled has released the sound pool on the way, unless it started cancelled |
| EscalationProperties.DestroyAlwaysReleases | app/src/main/java/com/cantrip/focusalarm/EscalationService.kt:219-225 | whatever happened before, destroying a service that started uncancelled releases the pool: through the cancellation, or through the destroy guard |

## Behaviour of the code worth knowing

The model follows the code in each of these places.

- Cancel and Acknowledge do not look at `isCancelled`. A second Cancel re-runs
  `cancelEscalation`, including `soundPool.release()`
  (`RepeatedCancelReleasesAgain`). Acknowledge below level 4 still sets
  `acknowledged` after a cancellation.
- The single-beep retry and teardown are posted through fresh anonymous
  Handlers (lines 119 and 164), which `cancelEscalation` never clears. So when
  a Cancel arrives while the retry is pending, the retry still runs: it calls
  `soundPool.play` on the pool that the Cancel released, and posts the teardown
  (`SingleBeepRetrySurvivesCancel`). When that teardown runs, it calls
  `cancelEscalation` once more, a second release included (`TeardownFires`).
  What the code does guarantee is that no beep or level tick has an effect
  after a cancellation (`CancelSilencesTicks`, `SilentAfterCancel`, the
  `NoTicks` part of `Valid`).
- The single-beep path works on the same fields as the escalation. The intent
  is handled even after a cancellation, and its teardown cancels any
  escalation in progress.
- The retry plays without checking again whether the level-1 sound has
  loaded. The only check is that the level-1 entry exists in `soundMap`.

## Left out

- Android service plumbing is not modelled: the Service lifecycle,
  `startForeground`'s notification id, the `START_NOT_STICKY` return value and
  `onBind`. `stopSelf` is recorded as an effect. The `onDestroy` it leads to is
  a separate `Destroy` event, because the framework decides when it happens.
- `Run` does not stop intents after `Destroy`: it applies them to the same
  state, where the framework would hand them to a new instance that starts
  from `onCreate` at level 1. The lemmas over all event sequences cover these
  traces as well.
- Notification building (`createNotification`, `updateNotification`, the
  notification channel) is reduced to a `Notify(level)` effect carrying the
  level shown.
- SoundPool internals are left out: loading, stream limits, volume and rate
  arguments, and what `autoPause` and `release` do inside the pool. A `Play` on
  a released pool is still recorded, because the code still makes that call.
- The load-complete listener runs at a time the model does not choose. It is
  the `LoadComplete` event, which the environment may deliver at any point.
- Logging calls are not modelled.
- The looper is never late: a message runs exactly at its due time, and
  `Elapse` cannot move the clock past the next due message. So the reposts at
  lines 89 and 108, which count from the moment the callback actually ran,
  count here from the due time, and neither loop drifts. It also fixes which
  tick runs first when a beep and a level tick fall due at the same time (at
  60 s, say): the one posted earlier, by the queue's first-in-first-out order.
- `@Volatile` and cross-thread concerns are not modelled, because every
  callback runs on the main looper.
- The looper clock is an unbounded `nat`, and the level is an `int` that never
  leaves 1..4. Neither can overflow the source's `Long` or `Int`.
- `Escalation.Step` and `Escalation.Run`: their contracts do not bound the level
  above, because that needs the state invariant. The upper bound is stated
  separately by `EscalationInvariants.RunPreservesValid` and
  `EscalationProperties.LevelNeverDecreases`.
- The rest of the app is outside this model:
  - alarm list persistence and scheduling (`AlarmListActivity.kt`);
  - the drag-to-confirm UI (`AlarmActivity.kt`, `DragToConfirmListener.kt`);
  - the permission demo (`MainActivity.kt`);
  - intent forwarding (`AlarmReceiver.kt`);
  - view binding (`AlarmAdapter.kt`).

  None of these is part of the escalation engine.

=== FILE: escalation.dfy ===
/**
  The escalating-alarm engine of the FocusAlarm service.

  Once an alarm fires, the service beeps every 3 seconds with the sound of the
  current urgency level, and every 20 seconds stops all sound, forgets any
  acknowledgement and raises the level, up to level 4. Acknowledge silences
  the beeping until the next level change, except at level 4, where it cancels
  the whole episode. A separate single-beep path plays the level-1 sound once
  and tears the service down half a second later.

  Everything runs on the main looper, so the service is a deterministic step
  function over its state and the looper's message queue. The sound pool, the
  notification and the service lifecycle are ports: what the service asks of
  them is recorded as a sequence of effects.
*/
module Escalation {
  import opened Optional
  import opened MessageQueue

  const InitialLevel: int := 1
  const MaxLevel: int := 4
  const LevelDurationMillis: nat := 20_000
  const BeepIntervalMillis: nat := 3_000
  /** Delay before a single beep whose sound was not loaded yet is retried. */
  const SingleBeepRetryMillis: nat := 300
  /** Delay between the single beep and the teardown that follows it. */
  const SingleBeepSettleMillis: nat := 500

  const ActionAcknowledge: string := "com.cantrip.focusalarm.ACTION_ACKNOWLEDGE"
  const ActionCancel: string := "com.cantrip.focusalarm.ACTION_CANCEL"

  /** What the service asks of its ports. */
  datatype Effect =
    | Play(level: int)     // soundPool.play with the sound of `level`
    | StopAll              // soundPool.autoPause
    | Release              // soundPool.release
    | Notify(level: int)   // foreground notification showing "Urgency Level: level"
    | StopForeground
    | StopSelf

  /** The part of an intent the service reads: the single-beep extra and the action. */
  datatype Intent = Intent(singleBeep: bool, action: Option<string>)

  /** What an intent asks for, in the order the service tests for it. */
  datatype Command = SingleBeep | Acknowledge | Cancel | Start

  /** The service instance. `soundMap` maps a level to its loaded sample id;
      `now` is the looper's clock in milliseconds. */
  datatype Service = Service(
    level: int,
    acknowledged: bool,
    cancelled: bool,
    sound1Loaded: bool,
    soundMap: map<int, int>,
    now: nat,
    queue: seq<Message>)

  datatype Transition = Transition(next: Service, out: seq<Effect>)

  /** What can happen to the service: an intent delivered to it, the looper
      running its next message, time passing, the sound pool reporting a
      finished load, or the framework destroying the service. */
  datatype Event =
    | Deliver(intent: Option<Intent>)
    | Fire
    | Elapse(millis: nat)
    | LoadComplete(sampleId: int, status: int)
    | Destroy

  function Min(a: int, b: int): (m: int) {
    if a <= b then a else b
  }

  /** The state every reachable service is in: the level within its bounds,
      the queue in due-time order with nothing overdue, and no beep or level
      callback pending once the episode is cancelled. */
  predicate Valid(s: Service) {
    && InitialLevel <= s.level <= MaxLevel
    && Sorted(s.queue)
    && DueFrom(s.queue, s.now)
    && (s.cancelled ==> NoTicks(s.queue))
  }

  /** The service as onCreate leaves it: level 1, nothing acknowledged or
      cancelled, the four level sounds requested from the pool. */
  function OnCreate(sampleIds: seq<int>): (s: Service)
    requires |sampleIds| == MaxLevel
    ensures Valid(s)
    ensures s.level == InitialLevel && !s.acknowledged && !s.cancelled && !s.sound1Loaded
    ensures s.queue == []
    ensures s.soundMap.Keys == {1, 2, 3, 4}
    ensures forall l :: l in s.soundMap ==> s.soundMap[l] == sampleIds[l - 1]
  {
    Service(InitialLevel, false, false, false,
            map[1 := sampleIds[0], 2 := sampleIds[1], 3 := sampleIds[2], 4 := sampleIds[3]],
            0, [])
  }

  /** Posting `task` through its Handler, due `delay` milliseconds from now. */
  function Post(s: Service, task: Task, delay: nat): (r: Service)
    ensures r == s.(queue := r.queue)
    ensures forall x :: x in r.queue <==> x in s.queue || x == Message(task, s.now + delay)
  {
    s.(queue := Enqueue(s.queue, Message(task, s.now + delay)))
  }

  /** Posting adds exactly one message, even when an equal one is already
      pending, and drops none. */
  lemma PostAddsOneMessage(s: Service, task: Task, delay: nat)
    ensures multiset(Post(s, task, delay).queue) == multiset(s.queue) + multiset{Message(task, s.now + delay)}
  {
    EnqueueMultiset(s.queue, Message(task, s.now + delay));
  }

  /** `playBeepForLevel`: plays the sound of `level` if the pool has one. */
  function PlayBeepForLevel(soundMap: map<int, int>, level: int): (out: seq<Effect>)
    ensures Play(level) in out <==> level in soundMap
    ensures forall e :: e in out ==> e == Play(level)
    ensures |out| <= 1
  {
    if level in soundMap then [Play(level)] else []
  }

  /** `cancelEscalation`: marks the episode cancelled, drops every beep and
      level callback, stops and releases the sound pool and leaves the
      foreground. It does not look at whether it already ran. */
  function CancelEscalation(s: Service): (r: Transition)
    ensures r.next.cancelled && NoTicks(r.next.queue)
    ensures forall m :: m in r.next.queue <==> m in s.queue && HandlerOf(m.task) == OneShotHandler
    ensures r.next.level == s.level && r.next.acknowledged == s.acknowledged
    ensures r.next.sound1Loaded == s.sound1Loaded && r.next.soundMap == s.soundMap && r.next.now == s.now
    ensures r.out == [StopAll, Release, StopForeground, StopSelf]
    ensures forall e :: e in r.out ==> !e.Play? && !e.Notify?
  {
    var q := RemoveCallbacks(RemoveCallbacks(s.queue, BeepHandler), LevelHandler);
    Transition(s.(cancelled := true, queue := q), [StopAll, Release, StopForeground, StopSelf])
  }

  /** One run of `beepRunnable`: nothing at all once cancelled; otherwise the
      current level's sound unless acknowledged, and the next beep 3 seconds on. */
  function BeepTick(s: Service): (r: Transition)
    ensures s.cancelled ==> r == Transition(s, [])
    ensures !s.cancelled ==> r.next == Post(s, BeepRunnable, BeepIntervalMillis)
    ensures !s.cancelled ==> (r.out != [] <==> !s.acknowledged && s.level in s.soundMap)
    ensures forall e :: e in r.out ==> e == Play(s.level)
    ensures |r.out| <= 1
  {
    if s.cancelled then Transition(s, [])
    else
      var out := if !s.acknowledged then PlayBeepForLevel(s.soundMap, s.level) else [];
      Transition(Post(s, BeepRunnable, BeepIntervalMillis), out)
  }

  /** One run of `levelRunnable`: nothing at all once cancelled; otherwise
      stop all sound, forget the acknowledgement, raise the level unless it
      is at the maximum, show the new level, and come back 20 seconds on. */
  function LevelTick(s: Service): (r: Transition)
    ensures s.cancelled ==> r == Transition(s, [])
    ensures !s.cancelled && s.level <= MaxLevel ==> r.next.level == Min(s.level + 1, MaxLevel)
    ensures !s.cancelled && s.level >= MaxLevel ==> r.next.level == s.level
    ensures !s.cancelled ==> !r.next.acknowledged
    ensures !s.cancelled ==> r.out == [StopAll, Notify(r.next.level)]
    ensures !s.cancelled ==>
      r.next == Post(s, LevelRunnable, LevelDurationMillis).(acknowledged := false, level := r.next.level)
  {
    if s.cancelled then Transition(s, [])
    else
      var level := if s.level < MaxLevel then s.level + 1 else s.level;
      var posted := Post(s, LevelRunnable, LevelDurationMillis);
      Transition(posted.(acknowledged := false, level := level), [StopAll, Notify(level)])
  }

  /** `singleBeepAndCancel`: plays the level-1 sound if the pool has one and
      posts the teardown half a second later. It reads neither the level,
      the acknowledgement nor the cancelled flag. */
  function SingleBeepAndCancel(s: Service): (r: Transition)
    ensures r.next == Post(s, DeferredTeardown, SingleBeepSettleMillis)
    ensures Play(1) in r.out <==> 1 in s.soundMap
    ensures forall e :: e in r.out ==> e == Play(1)
    ensures |r.out| <= 1
  {
    Transition(Post(s, DeferredTeardown, SingleBeepSettleMillis), PlayBeepForLevel(s.soundMap, 1))
  }

  /** The dispatch order of `onStartCommand`: the single-beep extra first,
      then the two known actions; anything else, a missing intent included,
      takes the start path. */
  function Classify(intent: Option<Intent>): (c: Command)
    ensures c == SingleBeep <==> intent.Some? && intent.value.singleBeep
    ensures c == Acknowledge <==>
      intent.Some? && !intent.value.singleBeep && intent.value.action == Some(ActionAcknowledge)
    ensures c == Cancel <==>
      intent.Some? && !intent.value.singleBeep && intent.value.action == Some(ActionCancel)
  {
    match intent
    case None => Start
    case Some(i) =>
      if i.singleBeep then SingleBeep
      else match i.action
        case Some(a) =>
          if a == ActionAcknowledge then Acknowledge
          else if a == ActionCancel then Cancel
          else Start
        case None => Start
  }

  /** `onStartCommand`. Acknowledge and Cancel return before the start path
      and neither looks at the cancelled flag; the start path is guarded by
      that flag alone, so a second start posts a second beep loop. */
  function OnStartCommand(s: Service, intent: Option<Intent>): (r: Transition)
    ensures Classify(intent) == SingleBeep ==>
      r.next.level == s.level && r.next.acknowledged == s.acknowledged && r.next.cancelled == s.cancelled
      && |r.out| >= 1 && r.out[0] == Notify(1)
    ensures Classify(intent) == SingleBeep && !s.sound1Loaded ==>
      r == Transition(Post(s, DeferredSingleBeep, SingleBeepRetryMillis), [Notify(1)])
    ensures Classify(intent) == SingleBeep && s.sound1Loaded ==>
      r.next == Post(s, DeferredTeardown, SingleBeepSettleMillis)
      && r.out == [Notify(1)] + PlayBeepForLevel(s.soundMap, 1)
    ensures Classify(intent) == Acknowledge && s.level == MaxLevel ==> r == CancelEscalation(s)
    ensures Classify(intent) == Acknowledge && s.level != MaxLevel ==>
      r == Transition(s.(acknowledged := true), [])
    ensures Classify(intent) == Cancel ==> r == CancelEscalation(s)
    ensures Classify(intent) == Start && s.cancelled ==> r == Transition(s, [])
    ensures Classify(intent) == Start && !s.cancelled ==>
      r.out == [Notify(s.level)]
      && r.next == Post(Post(s, BeepRunnable, 0), LevelRunnable, LevelDurationMillis)
  {
    match Classify(intent)
    case SingleBeep =>
      if !s.sound1Loaded then
        Transition(Post(s, DeferredSingleBeep, SingleBeepRetryMillis), [Notify(1)])
      else
        var t := SingleBeepAndCancel(s);
        Transition(t.next, [Notify(1)] + t.out)
    case Acknowledge =>
      if s.level == MaxLevel then CancelEscalation(s)
      else Transition(s.(acknowledged := true), [])
    case Cancel => CancelEscalation(s)
    case Start =>
      if s.cancelled then Transition(s, [])
      else
        var withBeep := Post(s, BeepRunnable, 0);
        Transition(Post(withBeep, LevelRunnable, LevelDurationMillis), [Notify(s.level)])
  }

  /** Running the callback of a message that has just been taken off the queue. */
  function RunTask(s: Service, task: Task): (r: Transition)
    ensures s.level <= r.next.level
    ensures s.cancelled ==> r.next.cancelled
    ensures r.next.now == s.now && r.next.soundMap == s.soundMap
    ensures s.cancelled && HandlerOf(task) != OneShotHandler ==> r == Transition(s, [])
  {
    match task
    case BeepRunnable => BeepTick(s)
    case LevelRunnable => LevelTick(s)
    case DeferredSingleBeep => SingleBeepAndCancel(s)
    case DeferredTeardown => CancelEscalation(s)
  }

  /** The looper takes the message due first, moves its clock to that
      message's due time and runs the callback. */
  function FireNext(s: Service): (r: Transition)
    ensures s.queue == [] ==> r == Transition(s, [])
    ensures s.queue != [] ==> r.next.now == s.queue[0].when
    ensures s.queue != [] ==>
      r == RunTask(s.(now := s.queue[0].when, queue := s.queue[1..]), s.queue[0].task)
    ensures Valid(s) && s.queue != [] ==> forall m :: m in s.queue ==> r.next.now <= m.when
    ensures s.level <= r.next.level
    ensures s.cancelled ==> r.next.cancelled
    ensures r.next.soundMap == s.soundMap
    ensures s.cancelled && s.queue != [] && HandlerOf(s.queue[0].task) != OneShotHandler ==> r.out == []
  {
    if s.queue == [] then Transition(s, [])
    else
      var head := s.queue[0];
      RunTask(s.(now := head.when, queue := s.queue[1..]), head.task)
  }

  /** Time passes with nothing to run; the clock cannot pass the next due
      message, which the looper would have run first. */
  function ElapseBy(s: Service, millis: nat): (r: Service)
    ensures r == s.(now := r.now)
    ensures Valid(s) ==> s.now <= r.now <= s.now + millis
    ensures s.queue != [] ==> r.now <= s.queue[0].when
  {
    if s.queue == [] then s.(now := s.now + millis)
    else s.(now := Min(s.now + millis, s.queue[0].when))
  }

  /** The load-complete listener: only a successful load of the level-1
      sample marks the single-beep sound as ready. */
  function OnLoadComplete(s: Service, sampleId: int, status: int): (r: Service)
    ensures r == s.(sound1Loaded := r.sound1Loaded)
    ensures r.sound1Loaded <==>
      s.sound1Loaded || (status == 0 && 1 in s.soundMap && s.soundMap[1] == sampleId)
  {
    if status == 0 && 1 in s.soundMap && s.soundMap[1] == sampleId then s.(sound1Loaded := true)
    else s
  }

  /** `onDestroy`: drops every beep and level callback and releases the sound
      pool, unless a cancellation has released it already. */
  function OnDestroy(s: Service): (r: Transition)
    ensures NoTicks(r.next.queue)
    ensures forall m :: m in r.next.queue <==> m in s.queue && HandlerOf(m.task) == OneShotHandler
    ensures r.next == s.(queue := r.next.queue)
    ensures r.out != [] <==> !s.cancelled
    ensures forall e :: e in r.out ==> e == Release
    ensures |r.out| <= 1
  {
    var q := RemoveCallbacks(RemoveCallbacks(s.queue, BeepHandler), LevelHandler);
    Transition(s.(queue := q), if !s.cancelled then [Release] else [])
  }

  /** Clearing the beep and level Handlers keeps every copy of each one-shot
      message and drops every copy of the rest. */
  lemma ClearTicksMultiset(q: seq<Message>)
    ensures forall m :: multiset(RemoveCallbacks(RemoveCallbacks(q, BeepHandler), LevelHandler))[m]
                     == if HandlerOf(m.task) == OneShotHandler then multiset(q)[m] else 0
  {
    RemoveCallbacksMultiset(q, BeepHandler);
    RemoveCallbacksMultiset(RemoveCallbacks(q, BeepHandler), LevelHandler);
  }

  /** A cancellation drops exactly the beep and level messages: every pending
      single-beep message stays, with all its copies. */
  lemma CancelKeepsOneShots(s: Service)
    ensures forall m :: multiset(CancelEscalation(s).next.queue)[m]
                     == if HandlerOf(m.task) == OneShotHandler then multiset(s.queue)[m] else 0
  {
    ClearTicksMultiset(s.queue);
  }

  /** Destroying the service drops exactly the beep and level messages: every
      pending single-beep message stays, with all its copies. */
  lemma DestroyKeepsOneShots(s: Service)
    ensures forall m :: multiset(OnDestroy(s).next.queue)[m]
                     == if HandlerOf(m.task) == OneShotHandler then multiset(s.queue)[m] else 0
  {
    ClearTicksMultiset(s.queue);
  }

  /** One event. */
  function Step(s: Service, e: Event): (r: Transition)
    ensures s.level <= r.next.level
    ensures s.cancelled ==> r.next.cancelled
    ensures r.next.soundMap == s.soundMap
  {
    match e
    case Deliver(intent) => OnStartCommand(s, intent)
    case Fire => FireNext(s)
    case Elapse(millis) => Transition(ElapseBy(s, millis), [])
    case LoadComplete(sampleId, status) => Transition(OnLoadComplete(s, sampleId, status), [])
    case Destroy => OnDestroy(s)
  }

  /** A sequence of events, with the effects of each in order. */
  function Run(s: Service, events: seq<Event>): (r: Transition)
    ensures s.level <= r.next.level
    ensures s.cancelled ==> r.next.cancelled
    ensures r.next.soundMap == s.soundMap
    decreases |events|
  {
    if events == [] then Transition(s, [])
    else
      var first := Step(s, events[0]);
      var rest := Run(first.next, events[1..]);
      Transition(rest.next, first.out + rest.out)
  }

}

=== FILE: escalation_invariants.dfy ===
/**
  Every operation of the escalation service keeps it `Valid`: the level stays
  within 1..4, the looper's queue stays in due-time order with nothing due
  before the clock, and once cancelled no beep or level callback is pending.
*/
module EscalationInvariants {
  import opened Optional
  import opened MessageQueue
  import opened Escalation

  lemma PostPreservesValid(s: Service, task: Task, delay: nat)
    requires Valid(s)
    requires s.cancelled ==> HandlerOf(task) == OneShotHandler
    ensures Valid(Post(s, task, delay))
  {
    var m := Message(task, s.now + delay);
    EnqueueSorted(s.queue, m);
    EnqueueDueFrom(s.queue, m, s.now);
  }

  /** Clearing the beep and level Handlers keeps the queue's order. */
  lemma ClearTicksPreservesOrder(q: seq<Message>, t: nat)
    requires Sorted(q) && DueFrom(q, t)
    ensures var r := RemoveCallbacks(RemoveCallbacks(q, BeepHandler), LevelHandler);
      Sorted(r) && DueFrom(r, t) && NoTicks(r)
  {
    var q1 := RemoveCallbacks(q, BeepHandler);
    RemoveCallbacksSorted(q, BeepHandler);
    RemoveCallbacksDueFrom(q, BeepHandler, t);
    RemoveCallbacksSorted(q1, LevelHandler);
    RemoveCallbacksDueFrom(q1, LevelHandler, t);
  }

  lemma CancelPreservesValid(s: Service)
    requires Valid(s)
    ensures Valid(CancelEscalation(s).next)
  {
    ClearTicksPreservesOrder(s.queue, s.now);
  }

  lemma DestroyPreservesValid(s: Service)
    requires Valid(s)
    ensures Valid(OnDestroy(s).next)
  {
    ClearTicksPreservesOrder(s.queue, s.now);
  }

  lemma RunTaskPreservesValid(s: Service, task: Task)
    requires Valid(s)
    ensures Valid(RunTask(s, task).next)
  {
    match task
    case BeepRunnable =>
      if !s.cancelled {
        PostPreservesValid(s, BeepRunnable, BeepIntervalMillis);
      }
    case LevelRunnable =>
      if !s.cancelled {
        PostPreservesValid(s, LevelRunnable, LevelDurationMillis);
      }
    case DeferredSingleBeep =>
      PostPreservesValid(s, DeferredTeardown, SingleBeepSettleMillis);
    case DeferredTeardown =>
      CancelPreservesValid(s);
  }

  lemma FirePreservesValid(s: Service)
    requires Valid(s)
    ensures Valid(FireNext(s).next)
  {
    if s.queue != [] {
      TailDueFromHead(s.queue);
      var popped := s.(now := s.queue[0].when, queue := s.queue[1..]);
      assert forall m :: m in popped.queue ==> m in s.queue;
      assert Valid(popped);
      RunTaskPreservesValid(popped, s.queue[0].task);
    }
  }

  lemma StartCommandPreservesValid(s: Service, intent: Option<Intent>)
    requires Valid(s)
    ensures Valid(OnStartCommand(s, intent).next)
  {
    match Classify(intent)
    case SingleBeep =>
      if !s.sound1Loaded {
        PostPreservesValid(s, DeferredSingleBeep, SingleBeepRetryMillis);
      } else {
        PostPreservesValid(s, DeferredTeardown, SingleBeepSettleMillis);
      }
    case Acknowledge =>
      if s.level == MaxLevel {
        CancelPreservesValid(s);
      }
    case Cancel =>
      CancelPreservesValid(s);
    case Start =>
      if !s.cancelled {
        PostPreservesValid(s, BeepRunnable, 0);
        PostPreservesValid(Post(s, BeepRunnable, 0), LevelRunnable, LevelDurationMillis);
      }
  }

  /** One event keeps the service valid. */
  lemma StepPreservesValid(s: Service, e: Event)
    requires Valid(s)
    ensures Valid(Step(s, e).next)
  {
    match e
    case Deliver(intent) => StartCommandPreservesValid(s, intent);
    case Fire => FirePreservesValid(s);
    case Elapse(millis) =>
    case LoadComplete(sampleId, status) =>
    case Destroy => DestroyPreservesValid(s);
  }

  /** Any sequence of events keeps the service valid. */
  lemma {:induction false} RunPreservesValid(s: Service, events: seq<Event>)
    requires Valid(s)
    ensures Valid(Run(s, events).next)
    decreases |events|
  {
    if events != [] {
      StepPreservesValid(s, events[0]);
      RunPreservesValid(Step(s, events[0]).next, events[1..]);
    }
  }

}

=== FILE: escalation_properties.dfy ===
/**
  Properties of the escalation service over sequences of events: the level's
  bounds and monotonicity, the acknowledge policy, silence after cancel, the
  start and single-beep paths, and the accounting of the sound pool release.
*/
module EscalationProperties {
  import opened Optional
  import opened MessageQueue
  import opened Escalation
  import opened EscalationInvariants

  const StartIntent: Option<Intent> := Some(Intent(false, None))
  const AcknowledgeIntent: Option<Intent> := Some(Intent(false, Some(ActionAcknowledge)))
  const CancelIntent: Option<Intent> := Some(Intent(false, Some(ActionCancel)))
  const SingleBeepIntent: Option<Intent> := Some(Intent(true, None))

  /** Running two event sequences one after the other is running their
      concatenation. */
  lemma {:induction false} RunAppend(s: Service, a: seq<Event>, b: seq<Event>)
    ensures Run(s, a + b).next == Run(Run(s, a).next, b).next
    ensures Run(s, a + b).out == Run(s, a).out + Run(Run(s, a).next, b).out
    decreases |a|
  {
    if a == [] {
      assert a + b == b;
    } else {
      assert (a + b)[0] == a[0];
      assert (a + b)[1..] == a[1..] + b;
      var first := Step(s, a[0]);
      RunAppend(first.next, a[1..], b);
      assert first.out + (Run(first.next, a[1..]).out + Run(Run(first.next, a[1..]).next, b).out)
          == (first.out + Run(first.next, a[1..]).out) + Run(Run(first.next, a[1..]).next, b).out;
    }
  }

  /** The level never goes down: at any later point of a run it is at least
      what it was at any earlier point, and it stays within 1..4. */
  lemma LevelNeverDecreases(s: Service, events: seq<Event>, i: nat, j: nat)
    requires Valid(s)
    requires i <= j <= |events|
    ensures Run(s, events[..i]).next.level <= Run(s, events[..j]).next.level
    ensures InitialLevel <= Run(s, events[..j]).next.level <= MaxLevel
  {
    assert events[..j] == events[..i] + events[i..j];
    RunAppend(s, events[..i], events[i..j]);
    RunPreservesValid(s, events[..j]);
  }

  /** `n` level ticks applied one after the other. */
  function LevelTicks(s: Service, n: nat): (t: Service)
    decreases n
  {
    if n == 0 then s else LevelTicks(LevelTick(s).next, n - 1)
  }

  /** Each uncancelled level tick raises the level by one until it saturates
      at the maximum. */
  lemma {:induction false} LevelAfterTicks(s: Service, n: nat)
    requires !s.cancelled && InitialLevel <= s.level <= MaxLevel
    ensures LevelTicks(s, n).level == Min(s.level + n, MaxLevel)
    ensures !LevelTicks(s, n).cancelled
    decreases n
  {
    if n > 0 {
      var t := LevelTick(s).next;
      assert t.level == Min(s.level + 1, MaxLevel) && !t.cancelled;
      LevelAfterTicks(t, n - 1);
      assert LevelTicks(s, n) == LevelTicks(t, n - 1);
    }
  }

  /** From a fresh service, `n` level ticks leave it at level min(1 + n, 4). */
  lemma LevelFromCreation(sampleIds: seq<int>, n: nat)
    requires |sampleIds| == MaxLevel
    ensures LevelTicks(OnCreate(sampleIds), n).level == Min(1 + n, 4)
  {
    LevelAfterTicks(OnCreate(sampleIds), n);
  }

  /** Acknowledging acts exactly like cancelling when, and only when, the
      level is at its maximum. */
  lemma AcknowledgeIsCancelExactlyAtMax(s: Service)
    ensures OnStartCommand(s, AcknowledgeIntent) == OnStartCommand(s, CancelIntent)
        <==> s.level == MaxLevel
  {
    assert Classify(AcknowledgeIntent) == Acknowledge;
    assert Classify(CancelIntent) == Cancel;
    if s.level != MaxLevel {
      assert Release in OnStartCommand(s, CancelIntent).out;
    }
  }

  /** Below the maximum an acknowledgement silences the very next beep, and
      the beep after the following level change sounds again, at the new level. */
  lemma AcknowledgeSilencesOneLevelCycle(s: Service)
    requires Valid(s) && !s.cancelled && s.level < MaxLevel
    ensures var acked := OnStartCommand(s, AcknowledgeIntent).next;
      && acked == s.(acknowledged := true)
      && BeepTick(acked).out == []
      && BeepTick(LevelTick(acked).next).out == PlayBeepForLevel(s.soundMap, s.level + 1)
  {
    assert Classify(AcknowledgeIntent) == Acknowledge;
    var acked := OnStartCommand(s, AcknowledgeIntent).next;
    var raised := LevelTick(acked).next;
    assert raised.level == s.level + 1 && !raised.acknowledged && !raised.cancelled;
  }

  /** Acknowledge and Cancel intents never start the beep or level loop:
      they post nothing, so every pending message, counted with its copies,
      was pending before. */
  lemma CommandsNeverStartLoops(s: Service, intent: Option<Intent>)
    requires Classify(intent) == Acknowledge || Classify(intent) == Cancel
    ensures multiset(OnStartCommand(s, intent).next.queue) <= multiset(s.queue)
  {
    var q1 := RemoveCallbacks(s.queue, BeepHandler);
    RemoveCallbacksMultiset(s.queue, BeepHandler);
    RemoveCallbacksMultiset(q1, LevelHandler);
  }

  /** After a cancellation the beep and level callbacks are gone and would do
      nothing if they ran. */
  lemma CancelSilencesTicks(s: Service)
    ensures var c := CancelEscalation(s).next;
      && NoTicks(c.queue)
      && BeepTick(c) == Transition(c, [])
      && LevelTick(c) == Transition(c, [])
  {
  }

  /** Once cancelled, with no single-beep callback left over, no further
      timer, clock, sound-load or destroy event produces any effect. */
  lemma {:induction false} SilentAfterCancel(s: Service, events: seq<Event>)
    requires Valid(s) && s.cancelled && s.queue == []
    requires forall i :: 0 <= i < |events| ==> !events[i].Deliver?
    ensures Run(s, events).out == []
    ensures Run(s, events).next.queue == [] && Run(s, events).next.cancelled
    decreases |events|
  {
    if events != [] {
      var first := Step(s, events[0]);
      assert first.out == [] && first.next.queue == [];
      assert forall i :: 0 <= i < |events[1..]| ==> events[1..][i] == events[i + 1];
      SilentAfterCancel(first.next, events[1..]);
    }
  }

  /** Running a non-empty sequence of events is running its first event,
      then the rest. */
  lemma RunFirst(s: Service, events: seq<Event>)
    requires events != []
    ensures Run(s, events).next == Run(Step(s, events[0]).next, events[1..]).next
    ensures Run(s, events).out == Step(s, events[0]).out + Run(Step(s, events[0]).next, events[1..]).out
  {
  }

  lemma RunSingle(s: Service, e: Event)
    ensures Run(s, [e]) == Step(s, e)
  {
    assert [e][1..] == [];
    assert Step(s, e).out + [] == Step(s, e).out;
  }

  /** Starting an idle service shows its level and posts the beep loop due
      now, ahead of the escalation loop due 20 seconds later. */
  lemma StartPostsBeepFirst(s: Service)
    requires !s.cancelled && s.queue == []
    ensures OnStartCommand(s, StartIntent)
         == Transition(s.(queue := [Message(BeepRunnable, s.now), Message(LevelRunnable, s.now + LevelDurationMillis)]),
                       [Notify(s.level)])
  {
    assert Classify(StartIntent) == Start;
    var b := Message(BeepRunnable, s.now);
    var l := Message(LevelRunnable, s.now + LevelDurationMillis);
    assert Enqueue([], b) == [b];
    assert Enqueue([b], l) == [b] + Enqueue([], l) == [b, l];
  }

  /** So the first thing the looper runs after a start is a beep at the
      current level, before any level change. */
  lemma StartBeepsBeforeEscalating(s: Service)
    requires !s.cancelled && s.queue == []
    ensures Run(s, [Deliver(StartIntent), Fire]).out
         == [Notify(s.level)] + (if s.acknowledged then [] else PlayBeepForLevel(s.soundMap, s.level))
    ensures Run(s, [Deliver(StartIntent), Fire]).next.level == s.level
  {
    StartPostsBeepFirst(s);
    var started := OnStartCommand(s, StartIntent).next;
    var l := Message(LevelRunnable, s.now + LevelDurationMillis);
    assert FireNext(started) == BeepTick(s.(queue := [l]));
    RunFirst(s, [Deliver(StartIntent), Fire]);
    assert [Deliver(StartIntent), Fire][1..] == [Fire];
    RunSingle(started, Fire);
  }

  /** A fresh service that is started plays the level-1 sound first. */
  lemma FirstSoundIsLevelOne(sampleIds: seq<int>)
    requires |sampleIds| == MaxLevel
    ensures Run(OnCreate(sampleIds), [Deliver(StartIntent), Fire]).out == [Notify(1), Play(1)]
  {
    StartBeepsBeforeEscalating(OnCreate(sampleIds));
  }

  /** A second start is guarded only by the cancelled flag, so it posts a
      second beep loop and a second level loop. */
  lemma RepeatedStartDoublesLoops(s: Service)
    requires !s.cancelled && s.queue == []
    ensures Run(s, [Deliver(StartIntent), Deliver(StartIntent)]).next.queue
         == [Message(BeepRunnable, s.now), Message(BeepRunnable, s.now),
             Message(LevelRunnable, s.now + LevelDurationMillis),
             Message(LevelRunnable, s.now + LevelDurationMillis)]
  {
    var b := Message(BeepRunnable, s.now);
    var l := Message(LevelRunnable, s.now + LevelDurationMillis);
    StartPostsBeepFirst(s);
    var once := OnStartCommand(s, StartIntent).next;
    assert Enqueue([l], b) == [b, l];
    assert Enqueue([b, l], b) == [b] + Enqueue([l], b) == [b, b, l];
    assert Enqueue([], l) == [l];
    assert Enqueue([l], l) == [l] + Enqueue([], l) == [l, l];
    assert Enqueue([b, l], l) == [b] + Enqueue([l], l) == [b, l, l];
    assert Enqueue([b, b, l], l) == [b] + Enqueue([b, l], l) == [b, b, l, l];
    assert OnStartCommand(once, StartIntent).next.queue == [b, b, l, l];
    RunFirst(s, [Deliver(StartIntent), Deliver(StartIntent)]);
    assert [Deliver(StartIntent), Deliver(StartIntent)][1..] == [Deliver(StartIntent)];
    RunSingle(once, Deliver(StartIntent));
  }

  /** A cancel that repeats re-runs the whole teardown, release included. */
  lemma RepeatedCancelReleasesAgain(s: Service)
    ensures Run(s, [Deliver(CancelIntent), Deliver(CancelIntent)]).out
         == [StopAll, Release, StopForeground, StopSelf, StopAll, Release, StopForeground, StopSelf]
  {
    assert Classify(CancelIntent) == Cancel;
    var once := CancelEscalation(s).next;
    RunFirst(s, [Deliver(CancelIntent), Deliver(CancelIntent)]);
    assert [Deliver(CancelIntent), Deliver(CancelIntent)][1..] == [Deliver(CancelIntent)];
    RunSingle(once, Deliver(CancelIntent));
  }

  /** The events of one single-beep episode: the intent, a retry when the
      level-1 sound was not loaded yet, and the teardown. */
  function SingleBeepEvents(loaded: bool): (events: seq<Event>) {
    if loaded then [Deliver(SingleBeepIntent), Fire]
    else [Deliver(SingleBeepIntent), Fire, Fire]
  }

  /** The single-beep intent when the level-1 sound is loaded: play, and
      post the teardown. */
  lemma SingleBeepWhenLoaded(s: Service)
    requires s.queue == [] && s.sound1Loaded
    ensures OnStartCommand(s, SingleBeepIntent)
         == Transition(s.(queue := [Message(DeferredTeardown, s.now + SingleBeepSettleMillis)]),
                       [Notify(1)] + PlayBeepForLevel(s.soundMap, 1))
  {
    assert Classify(SingleBeepIntent) == SingleBeep;
    assert Enqueue([], Message(DeferredTeardown, s.now + SingleBeepSettleMillis))
        == [Message(DeferredTeardown, s.now + SingleBeepSettleMillis)];
  }

  /** The single-beep intent when the level-1 sound is not loaded: post the retry. */
  lemma SingleBeepWhenNotLoaded(s: Service)
    requires s.queue == [] && !s.sound1Loaded
    ensures OnStartCommand(s, SingleBeepIntent)
         == Transition(s.(queue := [Message(DeferredSingleBeep, s.now + SingleBeepRetryMillis)]), [Notify(1)])
  {
    assert Classify(SingleBeepIntent) == SingleBeep;
    assert Enqueue([], Message(DeferredSingleBeep, s.now + SingleBeepRetryMillis))
        == [Message(DeferredSingleBeep, s.now + SingleBeepRetryMillis)];
  }

  /** The retry, when it runs: play, and post the teardown. */
  lemma RetryFires(s: Service, t: nat)
    requires s.queue == [Message(DeferredSingleBeep, t)]
    ensures FireNext(s)
         == Transition(s.(now := t, queue := [Message(DeferredTeardown, t + SingleBeepSettleMillis)]),
                       PlayBeepForLevel(s.soundMap, 1))
  {
    assert Enqueue([], Message(DeferredTeardown, t + SingleBeepSettleMillis))
        == [Message(DeferredTeardown, t + SingleBeepSettleMillis)];
  }

  /** The teardown, when it runs: the whole cancellation. */
  lemma TeardownFires(s: Service, t: nat)
    requires s.queue == [Message(DeferredTeardown, t)]
    ensures FireNext(s)
         == Transition(s.(now := t, queue := [], cancelled := true), [StopAll, Release, StopForeground, StopSelf])
  {
    var c := CancelEscalation(s.(now := t, queue := []));
    assert c.next.queue == [];
  }

  lemma LoadedEpisodeTrace(s: Service)
    requires s.queue == [] && s.sound1Loaded
    ensures Run(s, [Deliver(SingleBeepIntent), Fire]).out
         == [Notify(1)] + PlayBeepForLevel(s.soundMap, 1) + [StopAll, Release, StopForeground, StopSelf]
    ensures Run(s, [Deliver(SingleBeepIntent), Fire]).next
         == s.(cancelled := true, now := s.now + SingleBeepSettleMillis)
  {
    SingleBeepWhenLoaded(s);
    var a := OnStartCommand(s, SingleBeepIntent);
    RunFirst(s, [Deliver(SingleBeepIntent), Fire]);
    assert [Deliver(SingleBeepIntent), Fire][1..] == [Fire];
    RunSingle(a.next, Fire);
    TeardownFires(a.next, s.now + SingleBeepSettleMillis);
  }

  /** The retry and the teardown it posts, run one after the other. */
  lemma RetryThenTeardown(s: Service, t: nat)
    requires s.queue == [Message(DeferredSingleBeep, t)]
    ensures Run(s, [Fire, Fire]).out
         == PlayBeepForLevel(s.soundMap, 1) + [StopAll, Release, StopForeground, StopSelf]
    ensures Run(s, [Fire, Fire]).next
         == s.(cancelled := true, now := t + SingleBeepSettleMillis, queue := [])
  {
    RetryFires(s, t);
    var b := FireNext(s);
    TeardownFires(b.next, t + SingleBeepSettleMillis);
    RunFirst(s, [Fire, Fire]);
    assert [Fire, Fire][1..] == [Fire];
    RunSingle(b.next, Fire);
  }

  lemma UnloadedEpisodeTrace(s: Service)
    requires s.queue == [] && !s.sound1Loaded
    ensures Run(s, [Deliver(SingleBeepIntent), Fire, Fire]).out
         == [Notify(1)] + PlayBeepForLevel(s.soundMap, 1) + [StopAll, Release, StopForeground, StopSelf]
    ensures Run(s, [Deliver(SingleBeepIntent), Fire, Fire]).next
         == s.(cancelled := true, now := s.now + SingleBeepRetryMillis + SingleBeepSettleMillis)
  {
    SingleBeepWhenNotLoaded(s);
    var a := OnStartCommand(s, SingleBeepIntent);
    RetryThenTeardown(a.next, s.now + SingleBeepRetryMillis);
    RunFirst(s, [Deliver(SingleBeepIntent), Fire, Fire]);
    assert [Deliver(SingleBeepIntent), Fire, Fire][1..] == [Fire, Fire];
  }

  /** A single-beep episode on an idle service shows level 1, plays the
      level-1 sound at most once (once exactly when the pool has it), and
      ends torn down within 800 milliseconds, level and acknowledgement untouched. */
  lemma SingleBeepEpisode(s: Service)
    requires s.queue == []
    ensures var r := Run(s, SingleBeepEvents(s.sound1Loaded));
      && r.out[0] == Notify(1)
      && multiset(r.out)[Play(1)] == (if 1 in s.soundMap then 1 else 0)
      && (forall e :: e in r.out && e.Play? ==> e == Play(1))
      && Release in r.out
      && r.next.cancelled && r.next.queue == []
      && r.next.level == s.level && r.next.acknowledged == s.acknowledged
      && r.next.now <= s.now + SingleBeepRetryMillis + SingleBeepSettleMillis
  {
    if s.sound1Loaded {
      LoadedEpisodeTrace(s);
    } else {
      UnloadedEpisodeTrace(s);
    }
    SingleBeepEffects(Run(s, SingleBeepEvents(s.sound1Loaded)).out, s.soundMap);
  }

  /** What the effects of a single-beep episode amount to. */
  lemma SingleBeepEffects(out: seq<Effect>, soundMap: map<int, int>)
    requires out == [Notify(1)] + PlayBeepForLevel(soundMap, 1) + [StopAll, Release, StopForeground, StopSelf]
    ensures out[0] == Notify(1) && Release in out
    ensures multiset(out)[Play(1)] == (if 1 in soundMap then 1 else 0)
    ensures forall e :: e in out && e.Play? ==> e == Play(1)
  {
    var play := PlayBeepForLevel(soundMap, 1);
    var teardown := [StopAll, Release, StopForeground, StopSelf];
    assert multiset(out) == multiset([Notify(1)]) + multiset(play) + multiset(teardown);
  }

  /** Once the pool reports the level-1 sample loaded, a single beep on a
      fresh service plays at once instead of waiting for the retry; a failed
      load or another sample leaves the retry in place. */
  lemma LoadCompleteSkipsRetry(sampleIds: seq<int>, sampleId: int, status: int)
    requires |sampleIds| == MaxLevel
    ensures var loaded := OnLoadComplete(OnCreate(sampleIds), sampleId, status);
      && (loaded.sound1Loaded <==> status == 0 && sampleId == sampleIds[0])
      && (loaded.sound1Loaded ==> OnStartCommand(loaded, SingleBeepIntent).out == [Notify(1), Play(1)])
      && (!loaded.sound1Loaded ==> OnStartCommand(loaded, SingleBeepIntent).out == [Notify(1)])
  {
    var loaded := OnLoadComplete(OnCreate(sampleIds), sampleId, status);
    if loaded.sound1Loaded {
      SingleBeepWhenLoaded(loaded);
    } else {
      SingleBeepWhenNotLoaded(loaded);
    }
  }

  /** The single-beep retry goes through a Handler that cancellation does not
      clear, so on a fresh service a cancel between the intent and the retry
      is followed by the retry all the same: it asks the released pool for the
      level-1 sound and posts the teardown, which will cancel once more. */
  lemma SingleBeepRetrySurvivesCancel(sampleIds: seq<int>)
    requires |sampleIds| == MaxLevel
    ensures Run(OnCreate(sampleIds), [Deliver(SingleBeepIntent), Deliver(CancelIntent), Fire]).out
         == [Notify(1), StopAll, Release, StopForeground, StopSelf, Play(1)]
    ensures Run(OnCreate(sampleIds), [Deliver(SingleBeepIntent), Deliver(CancelIntent), Fire]).next.queue
         == [Message(DeferredTeardown, SingleBeepRetryMillis + SingleBeepSettleMillis)]
  {
    var s := OnCreate(sampleIds);
    assert Classify(SingleBeepIntent) == SingleBeep;
    assert Classify(CancelIntent) == Cancel;
    var retry := Message(DeferredSingleBeep, SingleBeepRetryMillis);
    assert Enqueue([], retry) == [retry];
    var a := Step(s, Deliver(SingleBeepIntent));
    assert a == Transition(s.(queue := [retry]), [Notify(1)]);
    var b := Step(a.next, Deliver(CancelIntent));
    assert b.next.queue == [retry];
    var c := Step(b.next, Fire);
    assert c.out == [Play(1)];
    var teardown := Message(DeferredTeardown, SingleBeepRetryMillis + SingleBeepSettleMillis);
    assert Enqueue([], teardown) == [teardown];
    var events := [Deliver(SingleBeepIntent), Deliver(CancelIntent), Fire];
    RunFirst(s, events);
    assert events[1..] == [Deliver(CancelIntent), Fire];
    RunFirst(a.next, events[1..]);
    assert events[1..][1..] == [Fire];
    RunSingle(b.next, Fire);
  }

  /** Every step that cancels the episode releases the sound pool. */
  lemma StepReleasesWhenCancelling(s: Service, e: Event)
    requires !s.cancelled && Step(s, e).next.cancelled
    ensures Release in Step(s, e).out
  {
    if e.Fire? && s.queue != [] {
      var t := s.queue[0].task;
      assert t == DeferredTeardown;
    } else if e.Deliver? {
      assert Classify(e.intent) == Acknowledge || Classify(e.intent) == Cancel;
    }
  }

  /** A run that ends cancelled has released the sound pool along the way,
      unless it started cancelled. */
  lemma {:induction false} CancelledMeansReleased(s: Service, events: seq<Event>)
    ensures Run(s, events).next.cancelled ==> s.cancelled || Release in Run(s, events).out
    decreases |events|
  {
    if events != [] {
      var first := Step(s, events[0]);
      CancelledMeansReleased(first.next, events[1..]);
      if !s.cancelled && first.next.cancelled {
        StepReleasesWhenCancelling(s, events[0]);
      }
    }
  }

  /** However an episode that was not cancelled at its start goes, destroying
      the service releases the sound pool: by the cancellation, or by the
      destroy guard itself when no cancellation happened. */
  lemma {:induction false} DestroyAlwaysReleases(s: Service, events: seq<Event>)
    requires !s.cancelled
    ensures Release in Run(s, events + [Destroy]).out
    decreases |events|
  {
    var all := events + [Destroy];
    RunFirst(s, all);
    if events == [] {
      assert all[0] == Destroy && all[1..] == [];
      assert OnDestroy(s).out == [Release];
    } else {
      assert all[0] == events[0] && all[1..] == events[1..] + [Destroy];
      var first := Step(s, events[0]);
      if first.next.cancelled {
        StepReleasesWhenCancelling(s, events[0]);
      } else {
        DestroyAlwaysReleases(first.next, events[1..]);
      }
    }
  }

}

=== FILE: message_queue.dfy ===
/**
  The main looper's message queue, as the escalation service uses it.

  Every callback of the service is posted to one looper thread. A message
  carries the callback and the clock time (in milliseconds) it is due at; the
  queue is kept ordered by due time, and a message posted with the same due
  time as messages already queued runs after them. A Handler can drop all of
  its own pending messages, and only those.
*/
module MessageQueue {

  /** The callbacks the service posts. */
  datatype Task =
    | BeepRunnable        // the self-rescheduling beep loop
    | LevelRunnable       // the self-rescheduling escalation loop
    | DeferredSingleBeep  // single-beep retry after the level-1 sound was not ready
    | DeferredTeardown    // cancellation that follows a single beep

  /** The Handler a callback is posted through. The one-shot callbacks of the
      single-beep path each go through a fresh anonymous Handler, which the
      service keeps no reference to and so can never clear. */
  datatype Handler = BeepHandler | LevelHandler | OneShotHandler

  function HandlerOf(t: Task): (h: Handler)
    ensures h == OneShotHandler <==> t == DeferredSingleBeep || t == DeferredTeardown
    ensures h == BeepHandler <==> t == BeepRunnable
    ensures h == LevelHandler <==> t == LevelRunnable
  {
    match t
    case BeepRunnable => BeepHandler
    case LevelRunnable => LevelHandler
    case DeferredSingleBeep => OneShotHandler
    case DeferredTeardown => OneShotHandler
  }

  datatype Message = Message(task: Task, when: nat)

  /** Messages are kept in order of their due time. */
  predicate Sorted(q: seq<Message>) {
    forall i, j :: 0 <= i < j < |q| ==> q[i].when <= q[j].when
  }

  /** No message is due before time `t`. */
  predicate DueFrom(q: seq<Message>, t: nat) {
    forall i :: 0 <= i < |q| ==> t <= q[i].when
  }

  /** No beep or level callback is pending: only one-shot callbacks remain. */
  predicate NoTicks(q: seq<Message>) {
    forall m :: m in q ==> HandlerOf(m.task) == OneShotHandler
  }

  /** The number of leading messages due at or before `t`: where a message
      due at `t` is inserted. */
  function InsertionIndex(q: seq<Message>, t: nat): (k: nat)
    ensures k <= |q|
    ensures forall i :: 0 <= i < k ==> q[i].when <= t
    ensures k < |q| ==> t < q[k].when
  {
    if q == [] || t < q[0].when then 0 else 1 + InsertionIndex(q[1..], t)
  }

  /** Posting a message: it goes after every message due no later than it
      and before every message due after it. */
  function Enqueue(q: seq<Message>, m: Message): (r: seq<Message>)
    ensures forall x :: x in r <==> x in q || x == m
  {
    if q == [] || m.when < q[0].when then [m] + q
    else
      assert q == [q[0]] + q[1..];
      [q[0]] + Enqueue(q[1..], m)
  }

  /** `removeCallbacksAndMessages(null)` on Handler `h`: every message of `h`
      goes, every other message stays, in its order. */
  function RemoveCallbacks(q: seq<Message>, h: Handler): (r: seq<Message>)
    ensures forall x :: x in r <==> x in q && HandlerOf(x.task) != h
    ensures |r| <= |q|
  {
    if q == [] then []
    else
      assert q == [q[0]] + q[1..];
      var rest := RemoveCallbacks(q[1..], h);
      if HandlerOf(q[0].task) == h then rest else [q[0]] + rest
  }

  /** Removal keeps the order of what stays: it distributes over
      concatenation, so each message is kept or dropped where it stands. */
  lemma {:induction false} RemoveCallbacksAppend(a: seq<Message>, b: seq<Message>, h: Handler)
    ensures RemoveCallbacks(a + b, h) == RemoveCallbacks(a, h) + RemoveCallbacks(b, h)
    decreases |a|
  {
    if a == [] {
      assert a + b == b;
    } else {
      assert (a + b)[0] == a[0];
      assert (a + b)[1..] == a[1..] + b;
      RemoveCallbacksAppend(a[1..], b, h);
      var head := if HandlerOf(a[0].task) == h then [] else [a[0]];
      assert RemoveCallbacks(a + b, h) == head + RemoveCallbacks(a[1..] + b, h);
      assert RemoveCallbacks(a, h) == head + RemoveCallbacks(a[1..], h);
      assert head + (RemoveCallbacks(a[1..], h) + RemoveCallbacks(b, h))
          == (head + RemoveCallbacks(a[1..], h)) + RemoveCallbacks(b, h);
    }
  }

  /** A message due no later than any of a sorted queue can go in front of it. */
  lemma PrependSorted(m: Message, q: seq<Message>)
    requires Sorted(q)
    requires forall x :: x in q ==> m.when <= x.when
    ensures Sorted([m] + q)
  {
    var r := [m] + q;
    forall i, j | 0 <= i < j < |r|
      ensures r[i].when <= r[j].when
    {
      assert r[j] == q[j - 1] && r[j] in q;
      if i > 0 {
        assert r[i] == q[i - 1];
      }
    }
  }

  lemma {:induction false} RemoveCallbacksSorted(q: seq<Message>, h: Handler)
    ensures Sorted(q) ==> Sorted(RemoveCallbacks(q, h))
  {
    if Sorted(q) && q != [] {
      var rest := RemoveCallbacks(q[1..], h);
      RemoveCallbacksSorted(q[1..], h);
      if HandlerOf(q[0].task) != h {
        forall x | x in rest
          ensures q[0].when <= x.when
        {
          var k :| 0 <= k < |q[1..]| && q[1..][k] == x;
          assert q[k + 1] == x;
        }
        PrependSorted(q[0], rest);
      }
    }
  }

  lemma RemoveCallbacksDueFrom(q: seq<Message>, h: Handler, t: nat)
    ensures DueFrom(q, t) ==> DueFrom(RemoveCallbacks(q, h), t)
  {
    var r := RemoveCallbacks(q, h);
    forall i | 0 <= i < |r| && DueFrom(q, t)
      ensures t <= r[i].when
    {
      assert r[i] in r;
      var j :| 0 <= j < |q| && q[j] == r[i];
    }
  }

  lemma {:induction false} EnqueueSorted(q: seq<Message>, m: Message)
    ensures Sorted(q) ==> Sorted(Enqueue(q, m))
  {
    if Sorted(q) && q != [] && q[0].when <= m.when {
      var rest := Enqueue(q[1..], m);
      EnqueueSorted(q[1..], m);
      forall x | x in rest
        ensures q[0].when <= x.when
      {
        if x != m {
          var j :| 0 <= j < |q[1..]| && q[1..][j] == x;
          assert q[j + 1] == x;
        }
      }
      PrependSorted(q[0], rest);
    }
  }

  lemma EnqueueDueFrom(q: seq<Message>, m: Message, t: nat)
    requires t <= m.when
    ensures DueFrom(q, t) ==> DueFrom(Enqueue(q, m), t)
  {
    var r := Enqueue(q, m);
    forall i | 0 <= i < |r| && DueFrom(q, t)
      ensures t <= r[i].when
    {
      assert r[i] in r;
      if r[i] != m {
        var j :| 0 <= j < |q| && q[j] == r[i];
      }
    }
  }

  /** Where a posted message lands: after every message due no later than it,
      before every message due after it, with all others in their order. */
  lemma {:induction false} EnqueuePosition(q: seq<Message>, m: Message)
    ensures Enqueue(q, m) == q[..InsertionIndex(q, m.when)] + [m] + q[InsertionIndex(q, m.when)..]
  {
    if q != [] && q[0].when <= m.when {
      EnqueuePosition(q[1..], m);
      var k := InsertionIndex(q[1..], m.when);
      assert q[..k + 1] == [q[0]] + q[1..][..k];
      assert q[k + 1..] == q[1..][k..];
    }
  }

  /** Removal drops every copy of `h`'s messages and keeps every copy of
      the others. */
  lemma {:induction false} RemoveCallbacksMultiset(q: seq<Message>, h: Handler)
    ensures forall x :: multiset(RemoveCallbacks(q, h))[x]
                     == if HandlerOf(x.task) == h then 0 else multiset(q)[x]
    decreases |q|
  {
    if q != [] {
      RemoveCallbacksMultiset(q[1..], h);
      assert q == [q[0]] + q[1..];
      assert multiset(q) == multiset{q[0]} + multiset(q[1..]);
    }
  }

  /** Posting adds exactly one copy of the message and keeps every queued one. */
  lemma EnqueueMultiset(q: seq<Message>, m: Message)
    ensures multiset(Enqueue(q, m)) == multiset(q) + multiset{m}
  {
    var k := InsertionIndex(q, m.when);
    EnqueuePosition(q, m);
    assert q == q[..k] + q[k..];
  }

  /** The messages behind the head are due no earlier than the head. */
  lemma TailDueFromHead(q: seq<Message>)
    requires q != []
    ensures Sorted(q) ==> Sorted(q[1..]) && DueFrom(q[1..], q[0].when)
  {
  }

}

=== FILE: optional.dfy ===
/** A value that may be absent: the model's stand-in for Kotlin's nullable types. */
module Optional {

  datatype Option<+T> = None | Some(value: T)

}
